=== FILE: README.md ===
# Resumable download tasks and their manager, in Dafny

This project models the core of a small Go download manager. Two components are covered.

- **The download task** (`internal/task/task.go`). One task owns one file transfer and has a
  status: `Queued`, `Downloading`, `Paused`, `Completed`, `Error` or `Canceled`.
  Its goroutine (`Start`) works in three stages:
  - It names the local file after the URL's last segment.
  - It resumes from the size of a file already on disk, sending `Range: bytes=K-` when K > 0.
  - It accepts only 200 and 206 replies, then copies the body in 32 KiB chunks. Before each
    chunk it polls cancellation and a pause flag.
  `Pause`, `Resume` and `Cancel` are called from other goroutines.
- **The manager** (`internal/manager/manager.go`). It keeps a map from identifier to task and
  a counter that starts at 1. It forwards pause, resume and cancel to the addressed task, and
  hands out a copy of the map.

Everything is a pure function over immutable values. A `Task` holds the task's fields plus
the locals of `Start` (resume offset, Range header, byte counter, expected total). It also
holds a `Phase`, which records where the goroutine is: not started, preparing, at the loop
top, reading, parked on the resume channel, or returned. Each transition stands for one
critical section of the Go code, or for a few consecutive ones whose in-between states the
model already has, with one exception noted under "## Left out" (`Eof`):

- `Step(t, e)` is the goroutine. Its events are `Begin`, `Prepare(env)`, `Poll`, `Chunk(n)`,
  `Eof(n)`, `ReadErr(n)` and `WriteErr`.
- `env` carries what the filesystem and HTTP client answered.
- `Poll` is the `select` on the cancelled context, followed by the pause-flag check.
- An event that cannot happen in the current phase leaves the task unchanged.

`Pause`, `Resume` and `Cancel` are separate transitions. On the manager side,
`ManagerLemmas.Execute` interleaves manager calls and task steps arbitrarily.

The model follows the code where the code is not ideal:

- A cancel issued while the loop is parked is noticed only after a resume, because the
  parked loop does not watch the context. Even then the woken loop first reads one more
  chunk (line 143), and only the poll after that read reports `Canceled`.
- A cancel that interrupts the HTTP request or a body read surfaces as `Error`. A task
  cancelled before its goroutine starts therefore ends in `Error`, not `Canceled`.
- Progress is not clamped. A body longer than its Content-Length would show more than 100 and
  then fall back to 100 at its end. Go's HTTP/1 transport already cuts the body off at the
  Content-Length it parsed, so such reads do not reach this code; the model leaves reads
  unconstrained and therefore allows them.
- The expected total is an `int64` sum, which can wrap around to a negative value.
- A 200 reply to a resuming request is accepted like a 206. Its whole body is appended after
  the bytes already on disk, and the expected total is their sum, so the file would repeat
  its first bytes.

In one place the model departs from the code. The code ignores the error from
`http.NewRequestWithContext` (lines 89-94), so a URL the request constructor rejects leaves
a nil request and the goroutine panics. `DownloadTask.SetupAsWritten` models that crash.
`Step`'s `Prepare` event uses the corrected `DownloadTask.Setup` instead, which fails the task
with `Error` like any other request failure (see "## Findings").

Progress is `downloaded / total * 100` as an exact `real`. It is updated only when the total
is positive.

## Model

| member | source | states |
|---|---|---|
| DownloadTask.NewTask | internal/task/task.go:32-44 | a new task is `Queued` with progress 0, not paused, not cancelled, carries the given ID, URL and directory, and satisfies the task invariant |
| DownloadTask.FileName | internal/task/task.go:53-54 | the local name contains no `/`, is a suffix of the URL, and is either the whole URL or preceded by a `/` |
| TaskLemmas.FileNameUnique | internal/task/task.go:53-54 | those three properties determine the name: any suffix meeting them is the one `FileName` returns |
| TaskLemmas.FileNameAfterLastSlash | internal/task/task.go:53-54 | for `prefix + "/" + name` with no `/` in name, the local name is `name`, whatever the prefix |
| TaskLemmas.FileNameWithoutSlash | internal/task/task.go:53-54 | a URL without `/` is its own file name |
| TaskLemmas.FileNameExample | internal/task/task.go:53-54 | `https://example.com/file.zip` is stored as `file.zip` |
| DownloadTask.ResumeOffset | internal/task/task.go:60-72 | the offset is the size reported for an existing file that opened for append; in every other case it is 0 |
| Http.RangeHeader | internal/task/task.go:90-92 | a Range header is present exactly when the offset is positive, and it reads back as an open-ended range starting at that offset |
| Decimal.FormatNat | internal/task/task.go:91 | `%d` writes at least one digit, only digits, and no leading zero |
| Decimal.FormatNatValue | internal/task/task.go:91 | the digits `%d` writes denote the number written |
| Decimal.ParseInt64 | internal/task/task.go:116 | a successful parse is in int64 range, starts with a digit or sign, and is non-negative unless the sign is `-` |
| Decimal.ParseSignedDigits | internal/task/task.go:116 | for every optional sign followed by digits: with at least one digit the result is the signed value of the digits (leading zeros allowed) when it fits int64 and an error otherwise; a lone sign is an error |
| Decimal.ParseExamples | internal/task/task.go:116 | `007` reads as 7, `+5` as 5 and `-5` as -5; `+`, `-` and the empty text are errors |
| Decimal.ParseFormatted | internal/task/task.go:116 | a decimal Content-Length within int64 parses back to its value |
| Decimal.ParseRejectsNonDigit | internal/task/task.go:116-117 | a non-digit after the optional sign is a parse error |
| Decimal.ParseRejectsOverflow | internal/task/task.go:116-117 | 2^63 is a range error, not a wrapped value |
| Decimal.Wrap64 | internal/task/task.go:118 | the int64 result is in range, congruent to the exact sum modulo 2^64, and equal to it when it fits |
| Http.ExpectedTotal | internal/task/task.go:113-120 | the total is an int64: 0 when Content-Length is absent or does not parse, and otherwise the parsed value plus the offset, wrapped to int64 |
| Http.TotalFromContentLength | internal/task/task.go:113-120 | a well-formed Content-Length L gives the total L + K when that sum fits in int64 |
| Http.TotalWithLeadingZeros | internal/task/task.go:113-120 | a Content-Length written `007` counts as 7 bytes on top of the offset |
| Http.TotalCanWrap | internal/task/task.go:118 | a maximal Content-Length on a resumed file wraps the total to -2^63 |
| Http.Accepted | internal/task/task.go:107 | only 200 and 206 are accepted: every accepted code is a 2xx success, and every other code, 204 included, is refused |
| DownloadTask.Negotiate | internal/task/task.go:94-120 | once the file and request exist, the transfer proceeds iff the context is live and the reply is 200 or 206; it then carries the offset, a Range header iff the offset is positive that reads back as that offset, and the Content-Length total |
| DownloadTask.SetupAsWritten | internal/task/task.go:52-111 | as written, setup panics exactly when the file is ready and the request could not be built |
| DownloadTask.Setup | internal/task/task.go:52-111 | the transfer proceeds iff the file is ready, the request exists, the context is live and the status is 200 or 206; it then carries the resume offset, a Range header exactly when that offset is positive, and the Content-Length total |
| TaskLemmas.MalformedUrlPanics | internal/task/task.go:89-94 | a URL the request constructor rejects crashes the process in the code as written |
| TaskLemmas.SetupAgreesWithCode | internal/task/task.go:89-99 | the corrected setup equals the code wherever the code does not panic, and fails the task where it does |
| TaskLemmas.UnbuildableRequestIsError | internal/task/task.go:94-99 | with the correction, a request that cannot be built ends the task in `Error` |
| DownloadTask.Pause | internal/task/task.go:171-179 | Pause never changes the status; it sets the flag iff the task is `Downloading`, and it changes nothing else |
| DownloadTask.Resume | internal/task/task.go:182-190 | Resume is a no-op unless the task is `Paused`; then the loop wakes, the flag is cleared, the status is `Downloading` (lines 135-138) and the loop goes straight to its next read (line 143) without polling; nothing else changes |
| DownloadTask.Cancel | internal/task/task.go:193-195 | Cancel only cancels the context |
| DownloadTask.Percent | internal/task/task.go:153 | progress times the total equals 100 times the bytes; it is non-negative, at most 100 while the bytes stay within the total, and exactly 100 at the total |
| DownloadTask.Append | internal/task/task.go:143-155 | n written bytes raise the counter by exactly n; progress becomes the counter's share of the total when n > 0 and the total is positive, and is otherwise kept; nothing else changes |
| DownloadTask.Step | internal/task/task.go:47-167 | an event the goroutine is not ready for changes nothing; no step changes the ID, URL, directory, pause flag or context, a returned goroutine never moves again, and only setup can set the counter rather than add to it |
| TaskLemmas.PercentMonotone | internal/task/task.go:152-154 | progress is non-negative, grows with the byte count, and is at most 100 while the count stays within the total |
| TaskLemmas.AppendTracks | internal/task/task.go:143-155 | after a written chunk, progress is 0 or exactly the counter's share of a positive total |
| TaskLemmas.PrepareConsistent | internal/task/task.go:52-120 | setup leaves a consistent task: either `Error` and finished, or at the loop top with the counter at the resume offset |
| TaskLemmas.StepConsistent | internal/task/task.go:123-167 | every goroutine transition preserves the invariant: status matches phase, `Paused` iff parked, terminal iff returned, and `Completed` means progress 100 |
| TaskLemmas.CallsConsistent | internal/task/task.go:171-195 | Pause, Resume and Cancel preserve the same invariant |
| TaskLemmas.IdentityFixed | internal/task/task.go:15-29 | no goroutine step and none of Pause, Resume and Cancel changes a task's ID, URL or directory |
| TaskLemmas.Lifecycle | internal/task/task.go:47-195 | every goroutine step and every Pause, Resume and Cancel of a consistent task keeps its status or moves it along the lifecycle: Queued to Downloading, Downloading to Paused and back, Downloading to Completed, Error or Canceled |
| TaskLemmas.StartBegins | internal/task/task.go:47-50 | Start's first step takes a queued task to `Downloading`, about to set up the transfer, and keeps it consistent |
| TaskLemmas.ChunkAdvances | internal/task/task.go:143-155 | a chunk of n bytes advances the counter by exactly n; progress moves only when n > 0 and the total is positive |
| TaskLemmas.CounterNeverDecreases | internal/task/task.go:143-155 | no transition lowers the byte counter: a written chunk only adds to it (line 151), and only setup (lines 60-72) sets it |
| TaskLemmas.EofCompletes | internal/task/task.go:156-159 | end of stream counts the last bytes, sets progress to 100 and status to `Completed`, and ends the loop |
| TaskLemmas.FailuresEndInError | internal/task/task.go:145-165 | a read error or a write error sets `Error` and ends the loop; a failed write counts nothing |
| TaskLemmas.PollDecides | internal/task/task.go:124-141 | at the loop top, a cancelled context yields `Canceled`; otherwise a set flag yields `Paused` and parks the loop; otherwise the loop reads, with counter and progress unchanged |
| TaskLemmas.PauseResumeContinues | internal/task/task.go:130-143 | pause, poll, then resume leaves the task exactly where an unpaused poll would have: about to read, with the flag cleared and the same byte count, so the transfer continues from the same byte |
| TaskLemmas.TerminalIsFinal | internal/task/task.go:171-190 | a `Completed`, `Error` or `Canceled` task is unchanged by every goroutine step, by Pause and by Resume; Cancel keeps its status |
| TaskLemmas.CancelWhileParked | internal/task/task.go:124-165 | a cancel while parked changes nothing until a resume; the woken loop then performs one more read, which completes or fails the task or returns it to the loop top, where the poll reports `Canceled` |
| TaskLemmas.CancelDuringReadSettles | internal/task/task.go:143-165 | a cancel during a read ends the loop in `Completed`, `Error` or `Canceled`, the last at the very next poll |
| TaskLemmas.CancelBeforeStartIsError | internal/task/task.go:94-99 | a task cancelled before its goroutine runs ends in `Error`, because the request fails on the cancelled context |
| TaskLemmas.ProgressNeverDecreases | internal/task/task.go:143-159 | while the body does not overrun the expected total, progress never goes down |
| TaskLemmas.OverrunLowersProgress | internal/task/task.go:152-158 | a body longer than announced shows 200 and then drops to 100 at its end |
| TaskLemmas.IterationsCount | internal/task/task.go:123-155 | uninterrupted iterations add every chunk to the counter and keep the total, offset and Range header |
| TaskLemmas.ResumedSetup | internal/task/task.go:60-120 | resuming a K-byte file asks for `bytes=K-`, starts the counter at K and expects K + L from a 206 reply with Content-Length L |
| TaskLemmas.FullReplyToResume | internal/task/task.go:88-120 | a 200 reply with Content-Length L to a `bytes=K-` request starts the counter at K and expects K + L, so the full body is appended after the K bytes already on disk |
| TaskLemmas.LastIteration | internal/task/task.go:156-159 | a clean end of stream at the loop top completes the task without counting more bytes |
| TaskLemmas.ResumedDownloadCompletes | internal/task/task.go:47-167 | a resumed transfer that receives the announced L bytes ends `Completed` at 100 with K + L bytes, which equals the total |
| DownloadManager.NewManager | internal/manager/manager.go:23-31 | a new manager has an empty registry, NextID = 1 and the given directory, and is valid |
| DownloadManager.AddDownload | internal/manager/manager.go:34-44 | returns the current NextID and raises it by one; adds exactly one entry, equal to `NewTask` for that ID, the URL and the manager's directory, under an ID not used before; leaves existing entries alone and keeps the registry valid |
| DownloadManager.Forward | internal/manager/manager.go:57-87 | an unknown ID changes nothing; a known ID changes only that task, by the forwarded operation; keys and NextID are unchanged |
| DownloadManager.PauseDownload | internal/manager/manager.go:57-65 | a known ID's task becomes `Pause` of it, so it gains the flag iff it is `Downloading`; no other entry and no status changes; an unknown ID changes nothing |
| DownloadManager.ResumeDownload | internal/manager/manager.go:68-76 | a known ID's task becomes `Resume` of it, so only a `Paused` task changes, and it becomes `Downloading`, unflagged and about to read; no other entry changes |
| DownloadManager.CancelDownload | internal/manager/manager.go:79-87 | a known ID's task becomes `Cancel` of it, so only its context is cancelled; no other entry and no status changes |
| DownloadManager.RunTask | internal/manager/manager.go:41 | the started task takes exactly one `Step`; no other entry, no key and not NextID changes |
| DownloadManager.GetTasks | internal/manager/manager.go:90-99 | the copy has exactly the registry's keys, each mapped to the registry's task; the manager is an immutable value, so the registry is unchanged |
| ManagerLemmas.ForwardValid | internal/manager/manager.go:57-87 | forwarding keeps the registry valid |
| ManagerLemmas.RunTaskValid | internal/manager/manager.go:41 | a task's goroutine keeps the registry valid |
| ManagerLemmas.FirstDownload | tests/manager_test.go:8-22 | the first add on a new manager returns 1 and leaves one entry, `Queued`, for its URL |
| ManagerLemmas.AddAll | internal/manager/manager.go:34-38 | successive adds return NextID, NextID+1, …, and NextID rises by the number of adds |
| ManagerLemmas.AddAllKeys | internal/manager/manager.go:37-40 | after N adds the keys are the old keys plus exactly the N returned IDs, so the registry grows by N |
| ManagerLemmas.AddAllKeepsEntries | internal/manager/manager.go:39-40 | entries registered before the adds are unchanged |
| ManagerLemmas.AddAllUrls | internal/manager/manager.go:39-40 | each returned ID maps to the task for the URL it was returned for |
| ManagerLemmas.IdsStrictlyIncrease | internal/manager/manager.go:37-38 | identifiers from successive adds strictly increase and were never registered before |
| ManagerLemmas.AddingNDownloads | internal/manager/manager.go:34-44 | N adds on a new manager give exactly N entries, keyed 1 to N |
| ManagerLemmas.NextValid | internal/manager/manager.go:34-99 | every call and goroutine step keeps the registry valid; the key set only grows and NextID never decreases |
| ManagerLemmas.NextKeepsUrls | internal/manager/manager.go:34-99 | no action changes a registered task's URL |
| ManagerLemmas.ExecuteValid | internal/manager/manager.go:34-99 | over any interleaving, the registry stays valid, keys only grow, and each entry keeps its ID and URL |
| ManagerLemmas.FreshAfterAnyRun | internal/manager/manager.go:37-38 | after any run, the next add returns an ID that was not registered at the run's start and is not registered at its end |

## Findings

| source | as written | input that shows it | evidently intended | confidence | as-written member | corrected member |
|---|---|---|---|---|---|---|
| internal/task/task.go:89-94 | the error from `http.NewRequestWithContext` is overwritten by the next `:=` without being checked; the nil request is then dereferenced by `req.Header.Set` (offset > 0) or by `http.DefaultClient.Do`, and the panic in the task goroutine ends the process | a URL the request constructor rejects, such as one containing a newline (`http://example.com/a` + LF + `b`), with a file that can be created | the task ends in `Error`, like a failed request at lines 95-98 | medium; not executed | TaskLemmas.MalformedUrlPanics (on DownloadTask.SetupAsWritten) | DownloadTask.Setup, with TaskLemmas.UnbuildableRequestIsError and TaskLemmas.SetupAgreesWithCode |

## Left out

- File and HTTP I/O (`os.Stat`, `OpenFile`, `Create`, `Write`, `Do`, `Body.Read`, the deferred closes) are inputs: `FileProbe`, `Reply` and the read events.
- When `os.Stat` fails for a reason other than a missing file, `os.Create` truncates the file. The model only sees whether creation succeeded.
- `filepath.Join` and its path cleaning are not modelled. The model keeps the file name; the directory is the task's `downloadDir`.
- Goroutines, `sync.Mutex`, the unbuffered resume channel and the cancellation context are reduced to atomic transitions plus a `canceled` flag.
- The hand-off in `Resume` and the loop's re-lock at lines 135-138 are one transition. A second `Resume` that lands between them blocks forever in the Go code. That deadlock, and the manager holding its lock during the blocking send, are not modelled.
- No fairness or liveness: properties about how a task ends are stated for explicit event sequences.
- Progress uses exact rationals, not `float64`; rounding is not modelled.
- The byte counter is unbounded; its `int64` overflow would need 2^63 bytes.
- Diagnostics printed with `fmt.Printf` (unknown ID, not in progress, not paused, I/O errors) are not modelled.
- `ListDownloads` and `Watch` only print and read stdin.
- `NewDownloadManager`'s error result is always nil, so it is not modelled.
- `GetAllDownloadStatuses` and `ClearCancelledDownloads` are called by the HTTP front end but are not defined in `internal/manager/manager.go`. They are not part of this model.
- Step: the `Eof` event merges three locked regions: the chunk's progress update (line 153), `updateProgress(100.0)` (line 158) and `updateStatus("Completed")` (line 159). Between lines 158 and 159 a holder of the task pointer (as `GetTasks` hands out) sees progress 100 while the status is still `Downloading`, even with no Content-Length. That torn state is not modelled, and `Consistent` rules it out.
- Step: the `Prepare` event follows the corrected setup, so a URL the request constructor rejects ends the task in `Error`; the code as written panics there (SetupAsWritten, "## Findings").
- AddDownload: NextID is a Go `int` and is assumed never to wrap. After 2^63 adds it would wrap to a negative value and could later hand out a used ID; the model's counter is unbounded.
- IdsStrictlyIncrease: "never registered before" relies on the same unbounded counter.
- FreshAfterAnyRun: relies on the same unbounded counter.
- GetTasks: the Go copy holds the same `*DownloadTask` pointers as the registry, so a task's later changes show through it. The model's copy is a value snapshot taken at the call; what it shares with the registry later is not modelled.
- ProgressNeverDecreases: holds only while the body does not overrun the expected total, because the code does not clamp progress (see OverrunLowersProgress).

=== FILE: decimal.dfy ===
/**
 Decimal text as the Go standard library reads and writes it: the `%d`
 verb of fmt for a non-negative integer, and strconv.ParseInt with base 10
 and bit size 64. Also the two's-complement wrap-around of Go's `int64`.
 */
module Decimal {
  import opened Wrappers

  const Int64Min: int := -0x8000_0000_0000_0000
  const Int64Max: int := 0x7FFF_FFFF_FFFF_FFFF
  const Modulus64: int := 0x1_0000_0000_0000_0000

  predicate InInt64(x: int) {
    Int64Min <= x <= Int64Max
  }

  /** A non-negative `int64`, such as a file size. */
  type Size64 = n: int | 0 <= n <= Int64Max

  /** The value an `int64` computation yields when its exact result is `x`. */
  function Wrap64(x: int): (r: int)
    ensures InInt64(r)
    ensures (r - x) % Modulus64 == 0
    ensures InInt64(x) ==> r == x
  {
    (x - Int64Min) % Modulus64 + Int64Min
  }

  predicate IsDigit(c: char) {
    '0' <= c <= '9'
  }

  predicate AllDigits(s: string) {
    forall i :: 0 <= i < |s| ==> IsDigit(s[i])
  }

  function DigitValue(c: char): (d: nat)
    requires IsDigit(c)
    ensures d < 10
  {
    c as int - '0' as int
  }

  function DigitChar(d: nat): (c: char)
    requires d < 10
    ensures IsDigit(c) && DigitValue(c) == d
  {
    (d + '0' as int) as char
  }

  /** The number a string of decimal digits denotes, most significant digit first. */
  function DigitsValue(s: string): nat
    requires AllDigits(s)
  {
    if s == [] then 0 else DigitsValue(s[..|s| - 1]) * 10 + DigitValue(s[|s| - 1])
  }

  /** `fmt.Sprintf("%d", n)` for n >= 0: the shortest decimal rendering. */
  function FormatNat(n: nat): (s: string)
    ensures 1 <= |s| && AllDigits(s)
    ensures s[0] == '0' ==> |s| == 1
  {
    if n < 10 then [DigitChar(n)] else FormatNat(n / 10) + [DigitChar(n % 10)]
  }

  /** Reading back what `FormatNat` wrote gives the original number. */
  lemma {:induction false} FormatNatValue(n: nat)
    ensures DigitsValue(FormatNat(n)) == n
  {
    if n >= 10 {
      var s := FormatNat(n);
      assert s[..|s| - 1] == FormatNat(n / 10);
      FormatNatValue(n / 10);
    }
  }

  /**
   strconv.ParseInt(s, 10, 64): an optional '+' or '-' sign followed by one
   or more decimal digits (base 10 admits no prefix and no underscores); a
   value outside the int64 range is a range error. None stands for a
   non-nil error.
   */
  function ParseInt64(s: string): (r: Option<int>)
    ensures r.Some? ==> InInt64(r.value)
    ensures r.Some? ==> |s| >= 1 && (IsDigit(s[0]) || s[0] == '+' || s[0] == '-')
    ensures r.Some? && s[0] != '-' ==> r.value >= 0
  {
    if s == [] then None
    else
      var signed := s[0] == '-' || s[0] == '+';
      var body := if signed then s[1..] else s;
      if body == [] || !AllDigits(body) then None
      else
        var mag: int := DigitsValue(body);
        var v := if s[0] == '-' then 0 - mag else mag;
        if InInt64(v) then Some(v) else None
  }

  /** A Content-Length that fmt wrote is read back unchanged by strconv. */
  lemma ParseFormatted(n: nat)
    requires n <= Int64Max
    ensures ParseInt64(FormatNat(n)) == Some(n)
  {
    FormatNatValue(n);
  }

  /**
   Every text of the accepted shape, an optional sign followed by digits:
   with at least one digit it denotes the signed value of the digits (leading
   zeros allowed), which is returned exactly when it fits an int64; a sign
   alone, or nothing at all, is a syntax error.
   */
  lemma ParseSignedDigits(sign: string, d: string)
    requires sign == "" || sign == "+" || sign == "-"
    requires AllDigits(d)
    ensures d == [] ==> ParseInt64(sign + d) == None
    ensures d != [] ==>
      var v: int := if sign == "-" then 0 - DigitsValue(d) else DigitsValue(d);
      ParseInt64(sign + d) == if InInt64(v) then Some(v) else None
  {
    var s := sign + d;
    if sign != "" {
      assert s[0] == sign[0] && s[1..] == d;
    } else {
      assert s == d;
    }
  }

  /** Leading zeros and an explicit sign are accepted; a lone sign is not. */
  lemma ParseExamples()
    ensures ParseInt64("007") == Some(7)
    ensures ParseInt64("+5") == Some(5) && ParseInt64("-5") == Some(-5)
    ensures ParseInt64("-") == None && ParseInt64("+") == None && ParseInt64("") == None
  {
    ParseSignedDigits("", "007");
    ParseSignedDigits("+", "5");
    ParseSignedDigits("-", "5");
    ParseSignedDigits("-", "");
    ParseSignedDigits("+", "");
  }

  /** Text with anything but digits after the optional sign is rejected. */
  lemma ParseRejectsNonDigit(s: string, i: nat)
    requires 1 <= i < |s| && !IsDigit(s[i])
    ensures ParseInt64(s) == None
  {
    var body := if s[0] == '-' || s[0] == '+' then s[1..] else s;
    assert !IsDigit(body[i - (|s| - |body|)]);
  }

  /** One past the int64 maximum is a range error, not a wrapped value. */
  lemma ParseRejectsOverflow()
    ensures ParseInt64(FormatNat(Int64Max + 1)) == None
  {
    FormatNatValue(Int64Max + 1);
  }
}

=== FILE: http.dfy ===
/**
 The HTTP facts the transfer depends on: which status codes let it proceed,
 the open-ended byte-range request it sends when resuming (section 14.1.2
 and section 14.2 of RFC 9110), and the expected total size computed from
 Content-Length.
 */
module Http {
  import opened Wrappers
  import opened Decimal

  const StatusOK: int := 200
  const StatusPartialContent: int := 206
  const RangeUnit: string := "bytes="

  /**
   Only 200 OK and 206 Partial Content (section 15.3.7 of RFC 9110) let the
   transfer proceed: every accepted code is in the 2xx success class, and no
   other success code (204 No Content, say) and no redirect or error is accepted.
   */
  function Accepted(code: int): (b: bool)
    ensures b ==> 200 <= code < 300
    ensures code < StatusOK || StatusOK < code < StatusPartialContent || code > StatusPartialContent ==> !b
    ensures code == StatusOK || code == StatusPartialContent ==> b
  {
    code == StatusOK || code == StatusPartialContent
  }

  /**
   Reference reading of a Range header value of the form `bytes=first-`,
   an open-ended range-spec asking for everything from byte `first` on.
   None when the value has another shape.
   */
  function ParseOpenRange(h: string): Option<nat> {
    if |h| < |RangeUnit| + 2 || h[..|RangeUnit|] != RangeUnit || h[|h| - 1] != '-' then None
    else
      var first := h[|RangeUnit|..|h| - 1];
      if AllDigits(first) then Some(DigitsValue(first)) else None
  }

  /**
   The Range header the request carries for resume offset `offset`:
   `fmt.Sprintf("bytes=%d-", offset)` when the offset is positive, and no
   header at all otherwise.
   */
  function RangeHeader(offset: nat): (h: Option<string>)
    ensures h.Some? <==> offset > 0
    ensures h.Some? ==> ParseOpenRange(h.value) == Some(offset)
  {
    if offset > 0 then
      var v := RangeUnit + FormatNat(offset) + "-";
      assert v[|RangeUnit|..|v| - 1] == FormatNat(offset);
      FormatNatValue(offset);
      Some(v)
    else
      None
  }

  /**
   Expected total size: Content-Length plus the resume offset, computed in
   int64, when the header is present and parses; otherwise 0 (unknown).
   */
  function ExpectedTotal(contentLength: string, offset: Size64): (total: int)
    ensures InInt64(total)
    ensures contentLength == "" || ParseInt64(contentLength).None? ==> total == 0
    ensures ParseInt64(contentLength).Some? ==> total == Wrap64(ParseInt64(contentLength).value + offset)
  {
    if contentLength != "" then
      match ParseInt64(contentLength)
      case Some(cl) => Wrap64(cl + offset)
      case None => 0
    else 0
  }

  /** A well-formed Content-Length yields exactly length plus offset when the sum fits in int64. */
  lemma TotalFromContentLength(length: nat, offset: Size64)
    requires length + offset <= Int64Max
    ensures ExpectedTotal(FormatNat(length), offset) == length + offset
  {
    ParseFormatted(length);
  }

  /** A Content-Length with leading zeros, which the HTTP transport passes on, counts as its value. */
  lemma TotalWithLeadingZeros(offset: Size64)
    requires offset <= Int64Max - 7
    ensures ExpectedTotal("007", offset) == 7 + offset
  {
    ParseExamples();
  }

  /** The int64 sum can wrap: a maximal Content-Length on a resumed file yields a negative total. */
  lemma TotalCanWrap()
    ensures ExpectedTotal(FormatNat(Int64Max), 1) == Int64Min
  {
    var header := FormatNat(Int64Max);
    ParseFormatted(Int64Max);
    assert header != "";
    assert ExpectedTotal(header, 1) == Wrap64(Int64Max + 1);
  }
}

=== FILE: manager.dfy ===
/**
 The registry of download tasks: a map from identifier to task, the next
 identifier to hand out, and the directory every task downloads into. Each
 operation is one critical section under the manager's lock.
 */
module DownloadManager {
  import opened DownloadTask

  datatype Manager = Manager(tasks: map<int, Task>, downloadDir: string, nextId: int)

  /** Every key lies in [1, nextId). */
  ghost predicate Numbered(m: Manager) {
    && m.nextId >= 1
    && (forall k :: k in m.tasks ==> 1 <= k < m.nextId)
  }

  /** Numbered, and every key names its own consistent task in the manager's directory. */
  ghost predicate Valid(m: Manager) {
    && Numbered(m)
    && (forall k :: k in m.tasks ==>
          m.tasks[k].id == k && m.tasks[k].downloadDir == m.downloadDir && Consistent(m.tasks[k]))
  }

  /** NewDownloadManager: an empty registry whose first identifier will be 1. */
  function NewManager(downloadDir: string): (m: Manager)
    ensures m.tasks == map[] && m.nextId == 1 && m.downloadDir == downloadDir
    ensures Valid(m)
  {
    Manager(map[], downloadDir, 1)
  }

  datatype Added = Added(manager: Manager, id: int)

  /**
   AddDownload: hands out the current identifier, registers a fresh queued
   task for the URL under it, and leaves every existing entry alone. The
   task's goroutine starts separately (RunTask).
   */
  function AddDownload(m: Manager, url: string): (r: Added)
    ensures r.id == m.nextId && r.manager.nextId == r.id + 1
    ensures r.manager.downloadDir == m.downloadDir
    ensures r.manager.tasks.Keys == m.tasks.Keys + {r.id}
    ensures r.id in r.manager.tasks
    ensures var t := r.manager.tasks[r.id];
      t.id == r.id && t.url == url && t.downloadDir == m.downloadDir && t.status == Queued && t.progress == 0.0
    ensures r.manager.tasks[r.id] == NewTask(r.id, url, m.downloadDir)
    ensures Numbered(m) ==> r.id !in m.tasks && |r.manager.tasks| == |m.tasks| + 1
    ensures Numbered(m) ==> forall k :: k in m.tasks ==> r.manager.tasks[k] == m.tasks[k]
    ensures Numbered(m) ==> Numbered(r.manager)
    ensures Valid(m) ==> Valid(r.manager)
  {
    var id := m.nextId;
    var t := NewTask(id, url, m.downloadDir);
    Added(m.(tasks := m.tasks[id := t], nextId := id + 1), id)
  }

  /** The three task operations the manager forwards. */
  datatype Command = PauseCmd | ResumeCmd | CancelCmd

  function Perform(t: Task, c: Command): Task {
    match c
    case PauseCmd => Pause(t)
    case ResumeCmd => Resume(t)
    case CancelCmd => Cancel(t)
  }

  /**
   The lookup shared by PauseDownload, ResumeDownload and CancelDownload: the
   addressed task receives the command and nothing else changes; an unknown
   identifier changes nothing at all.
   */
  function Forward(m: Manager, id: int, c: Command): (r: Manager)
    ensures id !in m.tasks ==> r == m
    ensures r.tasks.Keys == m.tasks.Keys && r.nextId == m.nextId && r.downloadDir == m.downloadDir
    ensures forall k :: k in m.tasks && k != id ==> r.tasks[k] == m.tasks[k]
    ensures id in m.tasks ==> r.tasks[id] == Perform(m.tasks[id], c)
  {
    if id in m.tasks then m.(tasks := m.tasks[id := Perform(m.tasks[id], c)]) else m
  }

  /** PauseDownload: at most the addressed task gains the pause flag; no status changes. */
  function PauseDownload(m: Manager, id: int): (r: Manager)
    ensures id !in m.tasks ==> r == m
    ensures r.tasks.Keys == m.tasks.Keys && r.nextId == m.nextId
    ensures forall k :: k in m.tasks ==> r.tasks[k].status == m.tasks[k].status
    ensures forall k :: k in m.tasks && k != id ==> r.tasks[k] == m.tasks[k]
    ensures id in m.tasks ==> r.tasks[id].paused == (m.tasks[id].paused || m.tasks[id].status == Downloading)
    ensures id in m.tasks ==> r.tasks[id] == Pause(m.tasks[id])
  {
    Forward(m, id, PauseCmd)
  }

  /** ResumeDownload: only a paused addressed task changes, and it is downloading again. */
  function ResumeDownload(m: Manager, id: int): (r: Manager)
    ensures id !in m.tasks ==> r == m
    ensures r.tasks.Keys == m.tasks.Keys && r.nextId == m.nextId
    ensures forall k :: k in m.tasks && (k != id || m.tasks[k].status != Paused) ==> r.tasks[k] == m.tasks[k]
    ensures id in m.tasks && m.tasks[id].status == Paused ==>
      r.tasks[id].status == Downloading && !r.tasks[id].paused && r.tasks[id].phase.Reading?
    ensures id in m.tasks ==> r.tasks[id] == Resume(m.tasks[id])
  {
    Forward(m, id, ResumeCmd)
  }

  /** CancelDownload: the addressed task's context is cancelled; no status changes yet. */
  function CancelDownload(m: Manager, id: int): (r: Manager)
    ensures id !in m.tasks ==> r == m
    ensures r.tasks.Keys == m.tasks.Keys && r.nextId == m.nextId
    ensures forall k :: k in m.tasks ==> r.tasks[k].status == m.tasks[k].status
    ensures forall k :: k in m.tasks && k != id ==> r.tasks[k] == m.tasks[k]
    ensures id in m.tasks ==> r.tasks[id].canceled
    ensures id in m.tasks ==> r.tasks[id] == Cancel(m.tasks[id])
  {
    Forward(m, id, CancelCmd)
  }

  /** One step of the goroutine AddDownload started for task `id`; the rest of the registry is untouched. */
  function RunTask(m: Manager, id: int, e: LoopEvent): (r: Manager)
    ensures id !in m.tasks ==> r == m
    ensures r.tasks.Keys == m.tasks.Keys && r.nextId == m.nextId && r.downloadDir == m.downloadDir
    ensures forall k :: k in m.tasks && k != id ==> r.tasks[k] == m.tasks[k]
    ensures id in m.tasks ==> r.tasks[id] == Step(m.tasks[id], e)
  {
    if id in m.tasks then m.(tasks := m.tasks[id := Step(m.tasks[id], e)]) else m
  }

  /** A set that is not empty has an element. */
  lemma HasElement(s: set<int>)
    requires s != {}
    ensures exists x :: x in s
  {
    var none: set<int> := {};
    assert (forall x :: x in s <==> x in none) ==> s == none;
  }

  /** GetTasks: copies the registry entry by entry into a new map with the same keys and tasks. */
  method GetTasks(m: Manager) returns (copy: map<int, Task>)
    ensures copy.Keys == m.tasks.Keys
    ensures forall k :: k in copy ==> copy[k] == m.tasks[k]
  {
    copy := map[];
    var rest := m.tasks.Keys;
    while rest != {}
      invariant rest <= m.tasks.Keys
      invariant copy.Keys == m.tasks.Keys - rest
      invariant forall k :: k in copy ==> k in m.tasks && copy[k] == m.tasks[k]
      decreases rest
    {
      HasElement(rest);
      var key :| key in rest;
      copy := copy[key := m.tasks[key]];
      rest := rest - {key};
    }
  }
}

=== FILE: manager_lemmas.dfy ===
/**
 Properties of the registry over whole runs: every operation keeps it valid,
 identifiers come out strictly increasing and are never reused, and the set
 of registered identifiers only grows.
 */
module ManagerLemmas {
  import opened DownloadTask
  import opened TaskLemmas
  import opened DownloadManager

  /** Forwarding a command keeps the registry valid. */
  lemma ForwardValid(m: Manager, id: int, c: Command)
    requires Valid(m)
    ensures Valid(Forward(m, id, c))
  {
    if id in m.tasks {
      CallsConsistent(m.tasks[id]);
    }
  }

  /** A step of one task's goroutine keeps the registry valid. */
  lemma RunTaskValid(m: Manager, id: int, e: LoopEvent)
    requires Valid(m)
    ensures Valid(RunTask(m, id, e))
  {
    if id in m.tasks {
      StepConsistent(m.tasks[id], e);
      IdentityFixed(m.tasks[id], e);
    }
  }

  /** The first download added to a new manager gets identifier 1 and is its only entry. */
  lemma FirstDownload(downloadDir: string, url: string)
    ensures var r := AddDownload(NewManager(downloadDir), url);
      && r.id == 1 && |r.manager.tasks| == 1
      && r.manager.tasks[1].url == url && r.manager.tasks[1].status == Queued
  {
  }

  datatype Batch = Batch(manager: Manager, ids: seq<int>)

  /** A run of AddDownload calls, one per URL, collecting the identifiers they return. */
  function AddAll(m: Manager, urls: seq<string>): (r: Batch)
    requires Numbered(m)
    ensures Numbered(r.manager) && (Valid(m) ==> Valid(r.manager)) && r.manager.downloadDir == m.downloadDir
    ensures |r.ids| == |urls| && r.manager.nextId == m.nextId + |urls|
    ensures forall i :: 0 <= i < |r.ids| ==> r.ids[i] == m.nextId + i
    decreases |urls|
  {
    if urls == [] then Batch(m, [])
    else
      var a := AddDownload(m, urls[0]);
      var rest := AddAll(a.manager, urls[1..]);
      Batch(rest.manager, [a.id] + rest.ids)
  }

  /** The batch registers exactly the identifiers it returned, one new entry per URL. */
  lemma {:induction false} AddAllKeys(m: Manager, urls: seq<string>)
    requires Numbered(m)
    ensures var r := AddAll(m, urls);
      && (forall k :: k in r.manager.tasks <==> k in m.tasks || m.nextId <= k < r.manager.nextId)
      && |r.manager.tasks| == |m.tasks| + |urls|
    decreases |urls|
  {
    if urls != [] {
      var a := AddDownload(m, urls[0]);
      var rest := AddAll(a.manager, urls[1..]);
      AddAllKeys(a.manager, urls[1..]);
      assert AddAll(m, urls).manager == rest.manager;
      assert forall k :: k in a.manager.tasks <==> k in m.tasks || k == m.nextId;
      assert |rest.manager.tasks| == |a.manager.tasks| + |urls| - 1;
    }
  }

  /** Entries that were already registered come out of the batch untouched. */
  lemma {:induction false} AddAllKeepsEntries(m: Manager, urls: seq<string>)
    requires Numbered(m)
    ensures var r := AddAll(m, urls);
      forall k :: k in m.tasks ==> k in r.manager.tasks && r.manager.tasks[k] == m.tasks[k]
    decreases |urls|
  {
    if urls != [] {
      var a := AddDownload(m, urls[0]);
      AddAllKeepsEntries(a.manager, urls[1..]);
    }
  }

  /** Each returned identifier names the task for the URL it was returned for. */
  lemma {:induction false} AddAllUrls(m: Manager, urls: seq<string>)
    requires Numbered(m)
    ensures var r := AddAll(m, urls);
      forall i :: 0 <= i < |urls| ==> r.ids[i] in r.manager.tasks && r.manager.tasks[r.ids[i]].url == urls[i]
    decreases |urls|
  {
    if urls != [] {
      var a := AddDownload(m, urls[0]);
      var rest := AddAll(a.manager, urls[1..]);
      AddAllUrls(a.manager, urls[1..]);
      AddAllKeepsEntries(a.manager, urls[1..]);
      var r := AddAll(m, urls);
      assert r.manager == rest.manager && r.ids == [a.id] + rest.ids;
      forall i | 0 <= i < |urls|
        ensures r.ids[i] in r.manager.tasks && r.manager.tasks[r.ids[i]].url == urls[i]
      {
        if i == 0 {
          assert a.id in a.manager.tasks && a.manager.tasks[a.id].url == urls[0];
        } else {
          assert r.ids[i] == rest.ids[i - 1] && urls[i] == urls[1..][i - 1];
        }
      }
    }
  }

  /** Identifiers handed out by successive adds are strictly increasing, hence never repeated. */
  lemma IdsStrictlyIncrease(m: Manager, urls: seq<string>, i: int, j: int)
    requires Numbered(m) && 0 <= i < j < |urls|
    ensures AddAll(m, urls).ids[i] < AddAll(m, urls).ids[j]
    ensures AddAll(m, urls).ids[i] !in m.tasks
  {
  }

  /** Adding N downloads to a new manager yields exactly N entries, numbered 1 to N. */
  lemma AddingNDownloads(downloadDir: string, urls: seq<string>)
    ensures var r := AddAll(NewManager(downloadDir), urls);
      |r.manager.tasks| == |urls| && forall k :: k in r.manager.tasks <==> 1 <= k <= |urls|
  {
    AddAllKeys(NewManager(downloadDir), urls);
  }

  /** Everything that can happen to the registry: the manager's calls and the tasks' own goroutines. */
  datatype Action =
    | Add(url: string)
    | PauseReq(id: int)
    | ResumeReq(id: int)
    | CancelReq(id: int)
    | Loop(id: int, e: LoopEvent)

  function Next(m: Manager, a: Action): Manager {
    match a
    case Add(url) => AddDownload(m, url).manager
    case PauseReq(id) => PauseDownload(m, id)
    case ResumeReq(id) => ResumeDownload(m, id)
    case CancelReq(id) => CancelDownload(m, id)
    case Loop(id, e) => RunTask(m, id, e)
  }

  /** Every action keeps the registry valid, never removes an entry and never lowers the next identifier. */
  lemma NextValid(m: Manager, a: Action)
    requires Valid(m)
    ensures Valid(Next(m, a))
    ensures m.tasks.Keys <= Next(m, a).tasks.Keys && m.nextId <= Next(m, a).nextId
    ensures Next(m, a).downloadDir == m.downloadDir
  {
    match a
    case Add(url) =>
    case PauseReq(id) => ForwardValid(m, id, PauseCmd);
    case ResumeReq(id) => ForwardValid(m, id, ResumeCmd);
    case CancelReq(id) => ForwardValid(m, id, CancelCmd);
    case Loop(id, e) => RunTaskValid(m, id, e);
  }

  function Execute(m: Manager, actions: seq<Action>): Manager
    decreases |actions|
  {
    if actions == [] then m else Execute(Next(m, actions[0]), actions[1..])
  }

  /**
   Over any interleaving of calls and goroutine steps the registry stays
   valid, its key set only grows, and an entry's identity is fixed.
   */
  lemma {:induction false} ExecuteValid(m: Manager, actions: seq<Action>)
    requires Valid(m)
    ensures var r := Execute(m, actions);
      && Valid(r)
      && m.tasks.Keys <= r.tasks.Keys && m.nextId <= r.nextId
      && forall k :: k in m.tasks ==> r.tasks[k].url == m.tasks[k].url && r.tasks[k].id == k
    decreases |actions|
  {
    if actions != [] {
      var m1 := Next(m, actions[0]);
      NextValid(m, actions[0]);
      NextKeepsUrls(m, actions[0]);
      ExecuteValid(m1, actions[1..]);
    }
  }

  /** No action changes the URL of a registered task. */
  lemma NextKeepsUrls(m: Manager, a: Action)
    requires Valid(m)
    ensures forall k :: k in m.tasks ==> k in Next(m, a).tasks && Next(m, a).tasks[k].url == m.tasks[k].url
  {
    match a
    case Add(url) =>
    case PauseReq(id) =>
    case ResumeReq(id) =>
    case CancelReq(id) =>
    case Loop(id, e) => if id in m.tasks { IdentityFixed(m.tasks[id], e); }
  }

  /** An identifier AddDownload returns at any point of any run was never used before in that run. */
  lemma FreshAfterAnyRun(m: Manager, actions: seq<Action>, url: string)
    requires Valid(m)
    ensures var r := Execute(m, actions);
      var id := AddDownload(r, url).id;
      id !in m.tasks && id >= m.nextId
    ensures var r := Execute(m, actions);
      AddDownload(r, url).id !in r.tasks
  {
    ExecuteValid(m, actions);
  }
}

=== FILE: task.dfy ===
/**
 One download task: its lifecycle status, pause flag, cancellation flag and
 progress, together with where its transfer goroutine (the body of Start)
 currently is and the bookkeeping that goroutine keeps. Every locked region
 of the Go code is one atomic transition here; file and HTTP effects arrive
 as inputs carried by the loop's events.
 */
module DownloadTask {
  import opened Wrappers
  import opened Decimal
  import opened Http

  datatype Status = Queued | Downloading | Paused | Completed | Error | Canceled {

    /** The string stored in the task's Status field. */
    function Label(): string {
      match this
      case Queued => "Queued"
      case Downloading => "Downloading"
      case Paused => "Paused"
      case Completed => "Completed"
      case Error => "Error"
      case Canceled => "Canceled"
    }

    predicate Terminal() {
      Completed? || Error? || Canceled?
    }
  }

  /** Where the goroutine running Start is. */
  datatype Phase =
    | Idle      // created; Start has not run yet
    | Preparing // Start has set "Downloading" and is opening the file and sending the request
    | Top       // at the top of a loop iteration, about to poll cancellation and the pause flag
    | Reading   // past both checks, reading the next chunk of the body
    | Parked    // blocked on the resume channel
    | Finished  // Start has returned
  {
    predicate Running() {
      Preparing? || Top? || Reading?
    }
  }

  datatype Task = Task(
    id: int,
    url: string,
    downloadDir: string,
    status: Status,
    progress: real,
    paused: bool,
    canceled: bool,              // the task's context has been cancelled
    phase: Phase,
    fileName: string,            // local name, under downloadDir
    offset: Size64,              // resume offset: bytes already on disk when the transfer began
    rangeHeader: Option<string>, // the Range header the request carried, if any
    downloaded: nat,             // bytes on disk so far: offset plus bytes written this session
    total: int                   // expected size, 0 when unknown
  )

  /** Percentage of `total` that `done` bytes represent (the float64 quotient times 100, taken exactly). */
  function Percent(done: nat, total: int): (r: real)
    requires total > 0
    ensures r * (total as real) == (done as real) * 100.0
    ensures r >= 0.0
    ensures done <= total ==> r <= 100.0
    ensures done == total ==> r == 100.0
  {
    (done as real) / (total as real) * 100.0
  }

  /**
   The lifecycle's edges: Queued to Downloading, Downloading to Paused and
   back, and Downloading to one of the three terminal statuses; staying put
   is always allowed.
   */
  predicate Edge(a: Status, b: Status) {
    || a == b
    || (a.Queued? && b.Downloading?)
    || (a.Downloading? && b.Paused?)
    || (a.Paused? && b.Downloading?)
    || (a.Downloading? && b.Terminal())
  }

  /** What the task promises between transitions. */
  ghost predicate Consistent(t: Task) {
    && (t.status.Queued? <==> t.phase.Idle?)
    && (t.status.Downloading? <==> t.phase.Running())
    && (t.status.Paused? <==> t.phase.Parked?)
    && (t.status.Terminal() <==> t.phase.Finished?)
    && (t.phase.Parked? ==> t.paused)
    && (t.phase.Idle? ==> !t.paused)
    && (t.phase.Idle? || t.phase.Preparing? ==> t.downloaded == 0 && t.progress == 0.0)
    && (t.status.Completed? ==> t.progress == 100.0)
    && t.progress >= 0.0
    && t.offset <= t.downloaded
    && (t.rangeHeader.Some? <==> t.offset > 0)
    && (!t.phase.Finished? ==> t.progress == 0.0 || (t.total > 0 && t.progress == Percent(t.downloaded, t.total)))
  }

  /** NewDownloadTask: a queued task with nothing downloaded, neither paused nor cancelled. */
  function NewTask(id: int, url: string, downloadDir: string): (t: Task)
    ensures t.id == id && t.url == url && t.downloadDir == downloadDir
    ensures t.status == Queued && t.status.Label() == "Queued"
    ensures t.progress == 0.0 && !t.paused && !t.canceled
    ensures Consistent(t)
  {
    Task(id, url, downloadDir, Queued, 0.0, false, false, Idle, "", 0, None, 0, 0)
  }

  /**
   The last element of strings.Split(url, "/"): the text after the last
   '/', or the whole URL when it has none.
   */
  function FileName(url: string): (name: string)
    ensures '/' !in name
    ensures |name| <= |url| && name == url[|url| - |name|..]
    ensures |name| < |url| ==> url[|url| - |name| - 1] == '/'
  {
    if url == [] || url[|url| - 1] == '/' then []
    else FileName(url[..|url| - 1]) + [url[|url| - 1]]
  }

  /** What Start learns from the filesystem about the local file (lines 62-80). */
  datatype FileProbe =
    | Absent(created: bool)                      // os.Stat failed; whether os.Create succeeded
    | Present(appendable: bool, size: Option<Size64>) // os.Stat succeeded; whether OpenFile for append succeeded; file.Stat's size

  /** What the HTTP client returns for the request (line 94). */
  datatype Reply = Failed | Reply(statusCode: int, contentLength: string)

  /** Everything outside the task that Start's setup consults. */
  datatype SetupEnv = SetupEnv(file: FileProbe, requestBuilt: bool, reply: Reply)

  /** The outcome of Start's setup: stop with "Error", or enter the chunk loop. */
  datatype Plan = Abort | Proceed(offset: Size64, rangeHeader: Option<string>, total: int)

  /** The setup as the code is written, which can also crash the process. */
  datatype Launch = Launched(plan: Plan) | Panicked

  predicate FileReady(f: FileProbe) {
    match f
    case Absent(created) => created
    case Present(appendable, _) => appendable
  }

  /** The resume offset: the size of a file that already exists, when it could be opened and measured. */
  function ResumeOffset(f: FileProbe): (k: Size64)
    ensures f.Present? && f.appendable && f.size.Some? ==> k == f.size.value
    ensures k > 0 ==> f.Present? && f.appendable && f.size == Some(k)
  {
    match f
    case Present(true, Some(size)) => size
    case _ => 0
  }

  /** Lines 94-120, once the file is open and the request exists. A cancelled context makes the request fail. */
  function Negotiate(k: Size64, reply: Reply, canceled: bool): (p: Plan)
    ensures p.Proceed? <==> !canceled && reply.Reply? && Accepted(reply.statusCode)
    ensures p.Proceed? ==> p.offset == k && (p.rangeHeader.Some? <==> k > 0)
    ensures p.Proceed? && k > 0 ==> ParseOpenRange(p.rangeHeader.value) == Some(k)
    ensures p.Proceed? ==> p.total == ExpectedTotal(reply.contentLength, k)
  {
    if canceled then Abort
    else
      match reply
      case Failed => Abort
      case Reply(code, contentLength) =>
        if Accepted(code) then Proceed(k, RangeHeader(k), ExpectedTotal(contentLength, k)) else Abort
  }

  /**
   Lines 52-120 as written: the error from http.NewRequestWithContext is
   overwritten unchecked, so a URL it rejects leaves a nil request that the
   Range header line or http.DefaultClient.Do dereferences.
   */
  function SetupAsWritten(env: SetupEnv, canceled: bool): (r: Launch)
    ensures r.Panicked? <==> FileReady(env.file) && !env.requestBuilt
  {
    if !FileReady(env.file) then Launched(Abort)
    else if !env.requestBuilt then Panicked
    else Launched(Negotiate(ResumeOffset(env.file), env.reply, canceled))
  }

  /**
   Lines 52-120 with a failed request construction treated like any other
   request failure. The transfer proceeds exactly when the file is ready, the
   request exists, the context is live and the reply is 200 or 206.
   */
  function Setup(env: SetupEnv, canceled: bool): (p: Plan)
    ensures p.Proceed? <==>
      FileReady(env.file) && env.requestBuilt && !canceled && env.reply.Reply? && Accepted(env.reply.statusCode)
    ensures p.Proceed? ==> p.offset == ResumeOffset(env.file)
    ensures p.Proceed? ==> (p.rangeHeader.Some? <==> p.offset > 0)
    ensures p.Proceed? && p.offset > 0 ==> ParseOpenRange(p.rangeHeader.value) == Some(p.offset)
    ensures p.Proceed? ==> p.total == ExpectedTotal(env.reply.contentLength, p.offset)
  {
    if !FileReady(env.file) || !env.requestBuilt then Abort
    else Negotiate(ResumeOffset(env.file), env.reply, canceled)
  }

  /** The events the transfer goroutine reacts to. */
  datatype LoopEvent =
    | Begin                  // lines 48-50
    | Prepare(env: SetupEnv) // lines 52-120, with the correction described at Setup
    | Poll                   // lines 124-141: the cancellation select, then the pause check
    | Chunk(n: nat)          // Read returned n bytes and no error, and they were written
    | Eof(n: nat)            // Read returned n bytes with io.EOF, and they were written
    | ReadErr(n: nat)        // Read returned n bytes with another error, and they were written
    | WriteErr               // Read returned bytes and writing them failed

  /** The read buffer is 32 KiB, so one Read returns at most that many bytes. */
  const BufferSize: nat := 32 * 1024

  /** Whether the goroutine is at the point where the event can happen. */
  predicate Enabled(t: Task, e: LoopEvent) {
    match e
    case Begin => t.phase.Idle?
    case Prepare(_) => t.phase.Preparing?
    case Poll => t.phase.Top?
    case Chunk(n) => t.phase.Reading? && n <= BufferSize
    case Eof(n) => t.phase.Reading? && n <= BufferSize
    case ReadErr(n) => t.phase.Reading? && n <= BufferSize
    case WriteErr => t.phase.Reading?
  }

  /** Lines 144-155: n bytes are appended; the counter and, when the total is known, the progress follow. */
  function Append(t: Task, n: nat): (r: Task)
    ensures r.downloaded == t.downloaded + n
    ensures n > 0 && t.total > 0 ==> r.progress == Percent(r.downloaded, t.total)
    ensures n == 0 || t.total <= 0 ==> r.progress == t.progress
    ensures r.(downloaded := t.downloaded, progress := t.progress) == t
  {
    if n == 0 then t
    else
      var d := t.downloaded + n;
      t.(downloaded := d, progress := if t.total > 0 then Percent(d, t.total) else t.progress)
  }

  /**
   Start's goroutine takes one step; an event that cannot happen where it is
   leaves the task unchanged. The goroutine never touches the identity, the
   pause flag or the context, and once it has returned nothing moves.
   */
  function Step(t: Task, e: LoopEvent): (r: Task)
    ensures !Enabled(t, e) ==> r == t
    ensures r.id == t.id && r.url == t.url && r.downloadDir == t.downloadDir
    ensures r.paused == t.paused && r.canceled == t.canceled
    ensures t.phase.Finished? ==> r == t
    ensures !e.Prepare? ==> r.downloaded >= t.downloaded
  {
    if !Enabled(t, e) then t
    else
      match e
      case Begin => t.(status := Downloading, phase := Preparing)
      case Prepare(env) =>
        var named := t.(fileName := FileName(t.url));
        (match Setup(env, t.canceled)
         case Abort => named.(status := Error, phase := Finished)
         case Proceed(k, h, total) =>
           named.(phase := Top, offset := k, rangeHeader := h, downloaded := k, total := total))
      case Poll =>
        if t.canceled then t.(status := Canceled, phase := Finished)
        else if t.paused then t.(status := Paused, phase := Parked)
        else t.(phase := Reading)
      case Chunk(n) => Append(t, n).(phase := Top)
      case Eof(n) => Append(t, n).(progress := 100.0, status := Completed, phase := Finished)
      case ReadErr(n) => Append(t, n).(status := Error, phase := Finished)
      case WriteErr => t.(status := Error, phase := Finished)
  }

  /** Pause (lines 171-179): only a downloading task takes the flag; the status is never touched. */
  function Pause(t: Task): (r: Task)
    ensures r.status == t.status
    ensures r.paused == (t.paused || t.status.Downloading?)
    ensures r.(paused := t.paused) == t
  {
    if t.status.Downloading? then t.(paused := true) else t
  }

  /**
   Resume (lines 182-190) together with the loop's wake-up (lines 135-138):
   a paused task hands the signal to its parked loop, which clears the flag,
   is downloading again and goes straight on to the next read (line 143)
   without polling first; any other task is left as it is.
   */
  function Resume(t: Task): (r: Task)
    ensures !t.status.Paused? ==> r == t
    ensures t.status.Paused? ==> r.status.Downloading? && !r.paused && r.phase.Reading?
    ensures r.(status := t.status, paused := t.paused, phase := t.phase) == t
  {
    if t.status.Paused? then t.(paused := false, status := Downloading, phase := Reading) else t
  }

  /** Cancel (lines 193-195): cancels the context and nothing else; the loop notices later. */
  function Cancel(t: Task): (r: Task)
    ensures r.canceled
    ensures r.(canceled := t.canceled) == t
  {
    t.(canceled := true)
  }

  /** The goroutine takes the events in order, with no external call in between. */
  function Run(t: Task, es: seq<LoopEvent>): Task
    decreases |es|
  {
    if es == [] then t else Run(Step(t, es[0]), es[1..])
  }

  predicate FitBuffer(chunks: seq<nat>) {
    forall i :: 0 <= i < |chunks| ==> chunks[i] <= BufferSize
  }

  /** One uninterrupted loop iteration per chunk size: the poll, then a read of that many bytes. */
  function Iterations(chunks: seq<nat>): (es: seq<LoopEvent>)
    ensures |es| == 2 * |chunks|
  {
    if chunks == [] then [] else [Poll, Chunk(chunks[0])] + Iterations(chunks[1..])
  }

  function Sum(xs: seq<nat>): nat {
    if xs == [] then 0 else xs[0] + Sum(xs[1..])
  }
}

=== FILE: task_lemmas.dfy ===
/** Properties of the download task's transitions. */
module TaskLemmas {
  import opened Wrappers
  import opened Decimal
  import opened Http
  import opened DownloadTask

  lemma PercentMonotone(a: nat, b: nat, total: int)
    requires a <= b && total > 0
    ensures 0.0 <= Percent(a, total) <= Percent(b, total)
    ensures b <= total ==> Percent(b, total) <= 100.0
  {
    var t := total as real;
    assert (a as real) / t <= (b as real) / t;
    if b <= total {
      assert (b as real) / t <= 1.0;
    }
  }

  /** Appending bytes keeps the progress equal to the counter's share of a known total. */
  lemma AppendTracks(t: Task, n: nat)
    requires Consistent(t) && t.phase.Reading?
    ensures var r := Append(t, n);
      && r.progress >= 0.0 && r.offset <= r.downloaded
      && (r.progress == 0.0 || (r.total > 0 && r.progress == Percent(r.downloaded, r.total)))
  {
    if n > 0 && t.total > 0 {
      PercentMonotone(0, t.downloaded + n, t.total);
    }
  }

  /**
   Start's setup either ends the task in "Error" or enters the loop with the
   counter at the resume offset, and either way the task stays consistent.
   */
  lemma PrepareConsistent(t: Task, env: SetupEnv)
    requires Consistent(t) && t.phase.Preparing?
    ensures var r := Step(t, Prepare(env));
      (r.status == Error && r.phase.Finished?) ||
      (r.phase.Top? && r.offset == ResumeOffset(env.file) && r.downloaded == r.offset)
    ensures Consistent(Step(t, Prepare(env)))
  {
    var p := Setup(env, t.canceled);
    if p.Proceed? {
      assert p.rangeHeader.Some? <==> p.offset > 0;
    }
  }

  /** Every transition of the goroutine keeps the task consistent. */
  lemma StepConsistent(t: Task, e: LoopEvent)
    requires Consistent(t)
    ensures Consistent(Step(t, e))
  {
    if Enabled(t, e) {
      match e
      case Prepare(env) => PrepareConsistent(t, env);
      case Chunk(n) => AppendTracks(t, n);
      case Eof(n) => AppendTracks(t, n);
      case ReadErr(n) => AppendTracks(t, n);
      case _ =>
    }
  }

  /** Pause, Resume and Cancel keep the task consistent. */
  lemma CallsConsistent(t: Task)
    requires Consistent(t)
    ensures Consistent(Pause(t)) && Consistent(Resume(t)) && Consistent(Cancel(t))
  {
  }

  /** No transition changes who the task is: identifier, URL and directory are fixed at creation. */
  lemma IdentityFixed(t: Task, e: LoopEvent)
    ensures var r := Step(t, e); r.id == t.id && r.url == t.url && r.downloadDir == t.downloadDir
    ensures Pause(t).id == t.id && Resume(t).id == t.id && Cancel(t).id == t.id
    ensures Pause(t).url == t.url && Resume(t).url == t.url && Cancel(t).url == t.url
    ensures Pause(t).downloadDir == t.downloadDir && Resume(t).downloadDir == t.downloadDir
    ensures Cancel(t).downloadDir == t.downloadDir
  {
  }

  /**
   Every transition of a consistent task follows the lifecycle: Queued,
   then Downloading, which alternates with Paused until it ends Completed,
   Error or Canceled.
   */
  lemma Lifecycle(t: Task, e: LoopEvent)
    requires Consistent(t)
    ensures Edge(t.status, Step(t, e).status)
    ensures Edge(t.status, Pause(t).status)
    ensures Edge(t.status, Resume(t).status)
    ensures Edge(t.status, Cancel(t).status)
  {
  }

  /** Start's first locked region takes a queued task to "Downloading" and on to its setup. */
  lemma StartBegins(t: Task)
    requires Consistent(t) && t.status == Queued
    ensures Step(t, Begin).status == Downloading && Step(t, Begin).phase.Preparing?
    ensures Consistent(Step(t, Begin))
  {
  }

  /** A chunk of n bytes advances the counter by exactly n; progress moves only when the total is known. */
  lemma ChunkAdvances(t: Task, n: nat)
    requires Enabled(t, Chunk(n))
    ensures var r := Step(t, Chunk(n));
      && r.downloaded == t.downloaded + n
      && r.status == t.status && r.phase.Top?
      && (n > 0 && t.total > 0 ==> r.progress == Percent(r.downloaded, t.total))
      && (n == 0 || t.total <= 0 ==> r.progress == t.progress)
  {
  }

  /** The byte counter never goes down. */
  lemma CounterNeverDecreases(t: Task, e: LoopEvent)
    requires Consistent(t)
    ensures Step(t, e).downloaded >= t.downloaded
  {
  }

  /** End of stream: the last bytes are counted, progress is 100 and the task is completed. */
  lemma EofCompletes(t: Task, n: nat)
    requires Enabled(t, Eof(n))
    ensures var r := Step(t, Eof(n));
      r.status == Completed && r.progress == 100.0 && r.phase.Finished? && r.downloaded == t.downloaded + n
  {
  }

  /** A read error or a write error ends the loop in "Error"; a failed write counts nothing. */
  lemma FailuresEndInError(t: Task, n: nat)
    requires t.phase.Reading? && n <= BufferSize
    ensures Step(t, ReadErr(n)).status == Error && Step(t, ReadErr(n)).phase.Finished?
    ensures Step(t, WriteErr).status == Error && Step(t, WriteErr).phase.Finished?
    ensures Step(t, WriteErr).downloaded == t.downloaded
  {
  }

  /** The top of an iteration: cancellation wins, then a set pause flag parks the loop, else it reads. */
  lemma PollDecides(t: Task)
    requires Consistent(t) && t.phase.Top?
    ensures var r := Step(t, Poll);
      && (t.canceled ==> r.status == Canceled && r.phase.Finished?)
      && (!t.canceled && t.paused ==> r.status == Paused && r.phase.Parked?)
      && (!t.canceled && !t.paused ==> r.status == Downloading && r.phase.Reading?)
      && r.downloaded == t.downloaded && r.progress == t.progress
  {
  }

  /**
   Pausing a task at the top of its loop and resuming it continues where it
   stopped, not from byte 0: the woken loop is exactly where an unpaused poll
   would have sent it, about to read the next chunk.
   */
  lemma PauseResumeContinues(t: Task)
    requires Consistent(t) && t.phase.Top? && !t.canceled
    ensures Step(Pause(t), Poll).status == Paused
    ensures Resume(Step(Pause(t), Poll)) == Step(t.(paused := false), Poll)
    ensures Resume(Step(Pause(t), Poll)).downloaded == t.downloaded
  {
  }

  /** Neither Pause nor Resume, nor any step of the loop, revives a finished task; Cancel only sets its flag. */
  lemma TerminalIsFinal(t: Task, e: LoopEvent)
    requires Consistent(t) && t.status.Terminal()
    ensures Step(t, e) == t && Pause(t) == t && Resume(t) == t
    ensures Cancel(t).status == t.status
  {
  }

  /**
   A cancel issued while the loop is parked takes effect only after a resume,
   and even then not at once: the woken loop first performs one more read,
   which completes the task, fails it, or brings it back to the top of the
   loop, where the poll reports "Canceled".
   */
  lemma CancelWhileParked(t: Task, e: LoopEvent, e2: LoopEvent)
    requires Consistent(t) && t.status == Paused
    ensures Step(Cancel(t), e) == Cancel(t)
    ensures Resume(Cancel(t)).status == Downloading && Resume(Cancel(t)).phase.Reading?
    ensures var r := Step(Resume(Cancel(t)), e2);
      r.phase.Top? || r.phase.Reading? || r.status in {Completed, Error}
    ensures var r := Step(Resume(Cancel(t)), e2);
      r.phase.Top? ==> Step(r, Poll).status == Canceled
  {
    CancelDuringReadSettles(Resume(Cancel(t)), e2, Poll);
  }

  /**
   A cancel during a read is settled by the end of the next iteration: the
   read completes, fails (reported as "Error") or reaches the end, and the
   following poll reports "Canceled".
   */
  lemma CancelDuringReadSettles(t: Task, e: LoopEvent, e2: LoopEvent)
    requires Consistent(t) && t.phase.Reading? && t.canceled
    ensures var r := Step(t, e);
      r.phase.Top? || r.phase.Reading? || r.status in {Completed, Error}
    ensures Step(t, e).phase.Top? ==> Step(Step(t, e), Poll).status == Canceled
  {
  }

  /** A task cancelled before its goroutine runs ends in "Error": the request fails on the cancelled context. */
  lemma CancelBeforeStartIsError(t: Task, env: SetupEnv)
    requires Consistent(t) && t.status == Queued
    ensures Step(Step(Cancel(t), Begin), Prepare(env)).status == Error
  {
  }

  /** The step cannot overrun the known total. */
  predicate WithinTotal(t: Task, e: LoopEvent) {
    match e
    case Chunk(n) => t.total > 0 ==> t.downloaded + n <= t.total
    case Eof(n) => t.total > 0 ==> t.downloaded + n <= t.total
    case ReadErr(n) => t.total > 0 ==> t.downloaded + n <= t.total
    case _ => true
  }

  /** While the body does not deliver more than the expected total, progress never goes backwards. */
  lemma ProgressNeverDecreases(t: Task, e: LoopEvent)
    requires Consistent(t) && WithinTotal(t, e)
    ensures Step(t, e).progress >= t.progress
  {
    if Enabled(t, e) && t.total > 0 {
      match e
      case Chunk(n) => PercentMonotone(t.downloaded, t.downloaded + n, t.total);
      case Eof(n) => PercentMonotone(t.downloaded, t.downloaded + n, t.total);
      case ReadErr(n) => PercentMonotone(t.downloaded, t.downloaded + n, t.total);
      case _ =>
    }
  }

  /** Progress is not clamped: a body longer than announced shows more than 100, then drops to 100 at its end. */
  lemma OverrunLowersProgress()
    ensures var t := NewTask(1, "u", "d").(status := Downloading, phase := Reading, total := 10);
      var a := Step(t, Chunk(20));
      a.progress == 200.0 && Step(Step(a, Poll), Eof(0)).progress == 100.0
  {
  }

  /** The three properties FileName promises pin the name down: any suffix meeting them is FileName's result. */
  lemma FileNameUnique(url: string, name: string)
    requires '/' !in name
    requires |name| <= |url| && name == url[|url| - |name|..]
    requires |name| < |url| ==> url[|url| - |name| - 1] == '/'
    ensures name == FileName(url)
  {
    var f := FileName(url);
    LastSegmentUnique(url, name, f);
  }

  /** Two slash-free suffixes that each start at the beginning or right after a slash are equal. */
  lemma LastSegmentUnique(url: string, a: string, b: string)
    requires '/' !in a && |a| <= |url| && a == url[|url| - |a|..]
    requires |a| < |url| ==> url[|url| - |a| - 1] == '/'
    requires '/' !in b && |b| <= |url| && b == url[|url| - |b|..]
    requires |b| < |url| ==> url[|url| - |b| - 1] == '/'
    ensures a == b
  {
    NoLongerThanBoundary(url, a, b);
    NoLongerThanBoundary(url, b, a);
  }

  /** A slash-free suffix is no longer than any suffix that starts right after a slash. */
  lemma NoLongerThanBoundary(url: string, a: string, b: string)
    requires '/' !in a && |a| <= |url| && a == url[|url| - |a|..]
    requires |b| <= |url| && (|b| < |url| ==> url[|url| - |b| - 1] == '/')
    ensures |a| <= |b|
  {
    if |b| < |a| {
      SlashInSuffix(url, a, |url| - |b| - 1);
    }
  }

  /** A slash that falls inside a suffix of the URL is in that suffix. */
  lemma SlashInSuffix(url: string, suffix: string, j: int)
    requires |suffix| <= |url| && suffix == url[|url| - |suffix|..]
    requires |url| - |suffix| <= j < |url| && url[j] == '/'
    ensures '/' in suffix
  {
    assert suffix[j - (|url| - |suffix|)] == '/';
  }

  /** Whatever precedes the last slash does not matter to the local name. */
  lemma FileNameAfterLastSlash(prefix: string, name: string)
    requires '/' !in name
    ensures FileName(prefix + "/" + name) == name
  {
    var url := prefix + "/" + name;
    assert url[|url| - |name|..] == name;
    assert url[|url| - |name| - 1] == '/';
    FileNameUnique(url, name);
  }

  /** A URL without a slash is its own file name. */
  lemma FileNameWithoutSlash(url: string)
    requires '/' !in url
    ensures FileName(url) == url
  {
    FileNameUnique(url, url);
  }

  lemma FileNameExample()
    ensures FileName("https://example.com/file.zip") == "file.zip"
  {
    FileNameAfterLastSlash("https://example.com", "file.zip");
    assert "https://example.com" + "/" + "file.zip" == "https://example.com/file.zip";
  }

  /** Running two event sequences back to back is running their concatenation. */
  lemma {:induction false} RunAppend(t: Task, a: seq<LoopEvent>, b: seq<LoopEvent>)
    ensures Run(t, a + b) == Run(Run(t, a), b)
    decreases |a|
  {
    if a == [] {
      assert a + b == b;
    } else {
      assert (a + b)[0] == a[0];
      assert (a + b)[1..] == a[1..] + b;
      RunAppend(Step(t, a[0]), a[1..], b);
    }
  }

  /** Running two events is taking the two steps. */
  lemma RunPair(t: Task, a: LoopEvent, b: LoopEvent)
    ensures Run(t, [a, b]) == Step(Step(t, a), b)
  {
    var t1 := Step(t, a);
    assert [a, b][1..] == [b];
    assert Run(t, [a, b]) == Run(t1, [b]);
    assert [b][1..] == [];
    assert Run(t1, [b]) == Run(Step(t1, b), []);
  }

  /** Uninterrupted iterations count every byte they read and leave the loop at its top. */
  lemma {:induction false} IterationsCount(t: Task, chunks: seq<nat>)
    requires Consistent(t) && t.phase.Top? && !t.canceled && !t.paused && FitBuffer(chunks)
    ensures var r := Run(t, Iterations(chunks));
      && Consistent(r) && r.phase.Top? && !r.canceled && !r.paused
      && r.downloaded == t.downloaded + Sum(chunks)
      && r.total == t.total && r.offset == t.offset && r.rangeHeader == t.rangeHeader
    decreases |chunks|
  {
    if chunks != [] {
      var t0 := Step(t, Poll);
      var t1 := Step(t0, Chunk(chunks[0]));
      StepConsistent(t, Poll);
      StepConsistent(t0, Chunk(chunks[0]));
      var es := Iterations(chunks);
      assert es == [Poll, Chunk(chunks[0])] + Iterations(chunks[1..]);
      RunAppend(t, [Poll, Chunk(chunks[0])], Iterations(chunks[1..]));
      RunPair(t, Poll, Chunk(chunks[0]));
      IterationsCount(t1, chunks[1..]);
    }
  }

  /**
   Resuming a file that already holds K bytes: the request asks for bytes
   from K on, and when the 206 reply delivers the announced L bytes the task
   completes at 100 with K + L bytes, which is the expected total.
   */
  lemma ResumedDownloadCompletes(t: Task, k: nat, length: nat, chunks: seq<nat>)
    requires Consistent(t) && t.status == Queued && !t.canceled
    requires 0 < k && k + length <= Int64Max && Sum(chunks) == length && FitBuffer(chunks)
    ensures var env := SetupEnv(Present(true, Some(k)), true, Reply(StatusPartialContent, FormatNat(length)));
      var r := Run(t, [Begin, Prepare(env)] + Iterations(chunks) + [Poll, Eof(0)]);
      && r.status == Completed && r.progress == 100.0
      && r.rangeHeader == Some(RangeUnit + FormatNat(k) + "-")
      && r.downloaded == r.total == k + length
  {
    var env := SetupEnv(Present(true, Some(k)), true, Reply(StatusPartialContent, FormatNat(length)));
    var start := [Begin, Prepare(env)];
    var its := Iterations(chunks);
    var t2 := ResumedSetup(t, k, length);
    RunPair(t, Begin, Prepare(env));
    assert Run(t, start) == t2;
    var t3 := Run(t2, its);
    IterationsCount(t2, chunks);
    RunAppend(t, start, its);
    assert Run(t, start + its) == t3;
    RunAppend(t, start + its, [Poll, Eof(0)]);
    RunPair(t3, Poll, Eof(0));
    LastIteration(t3);
  }

  /** A clean end of stream at the top of the loop completes the task without counting more bytes. */
  lemma LastIteration(t: Task)
    requires Consistent(t) && t.phase.Top? && !t.canceled && !t.paused
    ensures var r := Step(Step(t, Poll), Eof(0));
      && r.status == Completed && r.progress == 100.0
      && r.downloaded == t.downloaded && r.total == t.total && r.rangeHeader == t.rangeHeader
  {
  }

  /** The setup half of a resumed download. */
  lemma ResumedSetup(t: Task, k: nat, length: nat) returns (t2: Task)
    requires Consistent(t) && t.status == Queued && !t.canceled
    requires 0 < k && k + length <= Int64Max
    ensures var env := SetupEnv(Present(true, Some(k)), true, Reply(StatusPartialContent, FormatNat(length)));
      t2 == Step(Step(t, Begin), Prepare(env))
    ensures Consistent(t2) && t2.phase.Top? && !t2.canceled && !t2.paused
    ensures t2.downloaded == t2.offset == k && t2.total == k + length
    ensures t2.rangeHeader == Some(RangeUnit + FormatNat(k) + "-")
  {
    var env := SetupEnv(Present(true, Some(k)), true, Reply(StatusPartialContent, FormatNat(length)));
    TotalFromContentLength(length, k);
    t2 := Step(Step(t, Begin), Prepare(env));
    StepConsistent(t, Begin);
    StepConsistent(Step(t, Begin), Prepare(env));
  }

  /**
   A server that ignores the Range header answers 200 with the whole body of
   L bytes. The code accepts it as it would a 206: the counter starts at the
   K bytes already on disk, the body is appended after them, and the
   expected total is K + L, so the finished file would repeat its first K bytes.
   */
  lemma FullReplyToResume(t: Task, k: nat, length: nat) returns (t2: Task)
    requires Consistent(t) && t.status == Queued && !t.canceled
    requires 0 < k && k + length <= Int64Max
    ensures var env := SetupEnv(Present(true, Some(k)), true, Reply(StatusOK, FormatNat(length)));
      t2 == Step(Step(t, Begin), Prepare(env))
    ensures Consistent(t2) && t2.phase.Top? && t2.status == Downloading
    ensures t2.rangeHeader == Some(RangeUnit + FormatNat(k) + "-")
    ensures t2.downloaded == t2.offset == k && t2.total == k + length
  {
    var env := SetupEnv(Present(true, Some(k)), true, Reply(StatusOK, FormatNat(length)));
    TotalFromContentLength(length, k);
    t2 := Step(Step(t, Begin), Prepare(env));
    StepConsistent(t, Begin);
    StepConsistent(Step(t, Begin), Prepare(env));
  }

  /** The code as written: a URL that http.NewRequestWithContext rejects crashes the process instead of failing the task. */
  lemma MalformedUrlPanics()
    ensures SetupAsWritten(SetupEnv(Absent(true), false, Failed), false).Panicked?
  {
  }

  /** The corrected setup agrees with the code wherever the code does not crash, and reports "Error" where it does. */
  lemma SetupAgreesWithCode(env: SetupEnv, canceled: bool)
    ensures SetupAsWritten(env, canceled).Launched? ==> Setup(env, canceled) == SetupAsWritten(env, canceled).plan
    ensures SetupAsWritten(env, canceled).Panicked? ==> Setup(env, canceled) == Abort
  {
  }

  /** With the correction, a request that cannot be built ends the task in "Error". */
  lemma UnbuildableRequestIsError(t: Task, env: SetupEnv)
    requires t.phase.Preparing? && !env.requestBuilt
    ensures Step(t, Prepare(env)).status == Error
  {
  }
}

=== FILE: wrappers.dfy ===
/** Optional values, used for the Go idiom of a value paired with an error. */
module Wrappers {

  datatype Option<+T> = None | Some(value: T)
}
